=== FILE: README.md ===
# jengine board generator, modelled in Dafny

A functional model of the board generator in `src/lib.rs` of jengine, a Jeopardy
game engine that builds its boards from jservice trivia data. The model covers:

- the normalisation of a raw clue value onto the five tiers 200 to 1000;
- the category shuffler (`shuffle_category`, `get_clue_sample`), which picks one
  clue per tier and backfills a missing tier with an unvalued clue;
- `generate_board`, which draws fresh category identifiers from [7000, 15000)
  against a shared registry, places the daily doubles in distinct categories
  and assembles the board;
- `Jeopardy::generate`, which builds the two boards and the final clue;
- the `Board`, `BoardCategory` and `BoardClue` accessors.

Conventions:

- The random-number generator is a stream `Source = nat -> nat` read at a
  threaded position. `Choose(src, pos, n) = src(pos) % n` stands for one
  uniform draw among `n`.
- The two jservice calls are parameters. `CategoryService` maps an identifier
  to a category or an error. `RandomClueService` maps the call number (0, then
  1) to a clue list or an error.
- Every `unwrap`, `expect`, `panic!` and out-of-range index is a `Panic`
  outcome carrying its cause. `Err` is what `generate_board` returns.
  `Stalled` means the identifier redraw loop ran out of its `fuel` bound.

Modules, one per file:

- `Basics`: option type, `NoDup`, `FindFirst`, removal by position.
- `Upstream`: jservice `Clue` and `Category`, and the service types.
- `Values`: `BoardValue` and `Normalize`.
- `Outcomes`: outcomes and the choice stream.
- `Shuffle`: the shuffler.
- `Boards`: board types and accessors.
- `Generator`: `generate_board`.
- `Game`: `Jeopardy::generate`.

Behaviour of the code that the model follows:

- A category with a tier that cannot be filled is not skipped and redrawn. The
  `expect` in `get_clue_sample` panics first, so `shuffle_category` never
  returns `None`. `ShuffleCategory` states this, and the draw loop has no skip
  branch.
- `Jeopardy::generate` does not propagate board or service errors. It unwraps
  them into panics, and its result is never `Err`.
- The final clue is drawn at most twice. The second draw is kept even when it
  also collides with a board clue.
- The number of flagged clues is guaranteed to equal the number of daily
  doubles only when the board's clue identifiers are distinct. Backfill can
  hand one unvalued clue to two tiers (`BackfillRepeats`), and a daily double
  on a repeated identifier flags every copy.
- Category identifiers on a board are guaranteed distinct only when the
  service answers with the category that was asked for (`Honest`). The
  registry itself is always duplicate-free.

## Model

| member | source | states |
|---|---|---|
| Values.Normalize | src/lib.rs:102-108 | A raw value has a tier exactly when it is one of 200, 400, 600, 800, 1000, and then the tier's amount is that value; `None` and every other amount fail |
| Values.NormalizeAmount | src/lib.rs:249-255 | Normalising a tier's discriminant gives back that tier, and every discriminant is one of the five amounts |
| Shuffle.WithValue | src/lib.rs:138-140 | The candidate pool for a value holds exactly the category's clues with that raw value |
| Shuffle.GetClueSample | src/lib.rs:136-154 | A missing clue list panics. If the category has clues of the asked value, one of them is returned unchanged. Asking for `None` with no unvalued clue gives nothing. Otherwise an unvalued original is returned relabelled with the asked tier. With no unvalued clue either, it panics with the category and tier |
| Shuffle.SampleTiers | src/lib.rs:122-124 | Succeeds exactly when every listed tier can be filled. Then it gives one clue per tier, in order: an original clue of that value when the category has one, and only otherwise an unvalued original relabelled with the tier. Otherwise it panics for a tier that cannot be filled |
| Shuffle.ShuffleCategory | src/lib.rs:118-134 | Succeeds exactly when all five tiers can be filled, and then always returns a category. That category has the original's id and title and five clues, clue i carrying tier i: an original clue of that value when there is one, otherwise a relabelled unvalued original. Otherwise it panics with a cause naming an unfillable tier or the missing clue list |
| Shuffle.BackfillRepeats | src/lib.rs:143-150 | With clues for 200, 400 and 600 and one unvalued clue, the 800 and 1000 slots of every shuffle hold that same clue identifier |
| Shuffle.OwnCluesKept | src/lib.rs:138-142 | A category with a clue of every tier value always shuffles, and keeps only its own clues unchanged |
| Boards.NewBoardClue | src/lib.rs:266-273 | A new board clue is active and carries the given tier, daily-double flag and wrapped clue, whose identifier it reports |
| Boards.BoardClue.Value | src/lib.rs:275-277 | The points are the tier amount times the multiplier, congruent modulo 2^32 and exact when the product fits in an i32 |
| Boards.BoardCategory.Get | src/lib.rs:231-233 | Returns the first clue of the requested tier, or nothing when no clue has that tier |
| Boards.GetTier | src/lib.rs:231-233 | On a row in tier order, asking for the j-th tier returns the j-th clue |
| Boards.BoardCategory.MarkPlayed | src/lib.rs:235-237 | Marks as played the first clue of the tier, the one `get_mut` finds, and changes nothing else. `get` then returns that clue inactive. A missing tier changes nothing |
| Boards.MarkPlayedKeepsIds | src/lib.rs:235-245 | Marking keeps the category's identifier, which `id` reads from the inner category, and every clue's identifier |
| Boards.Board.MarkPlayed | src/lib.rs:180-182 | Marking tier v of category k through the mutable category iterator changes only category k, and category k changes exactly as `BoardCategory.MarkPlayed` marks it. Its identifier stays, and its `get` for v returns the marked clue inactive. A missing tier changes nothing |
| Boards.FlattenMembers | src/lib.rs:202-206 | The flat clue list holds exactly the clues of the given categories |
| Boards.Board.FlatClues | src/lib.rs:202-206 | The board's flat view holds exactly the clues of its categories |
| Boards.FlatLayout | src/lib.rs:202-206 | On five-clue rows the flat list has 5n entries, and clue j of row i sits at position 5i + j |
| Boards.ActiveOnly | src/lib.rs:190-194 | The filtered list holds exactly the active clues of its input |
| Boards.ActiveOnlyAppend | src/lib.rs:190-194 | The filter keeps order: it distributes over concatenation and keeps a single clue exactly when it is active, which fixes it on every list |
| Boards.Board.FlatActiveClues | src/lib.rs:190-194 | The active view holds exactly the active clues of the flat view and is no longer than it |
| Boards.FlatActiveRows | src/lib.rs:190-194 | The active view is the active clues of the first category followed by the active view of the remaining ones; an empty board has none |
| Boards.CountActive | src/lib.rs:168-170 | The fold's count is at most the list length. It equals the length exactly when all clues are active, and is 0 exactly when none is |
| Boards.Board.ActiveClues | src/lib.rs:168-170 | The active count is the length of the active view. It reaches the number of flat clues exactly when every clue is active |
| Boards.CountIsActiveLength | src/lib.rs:168-170 | Counting active clues and filtering them agree |
| Boards.FreshActiveCount | src/lib.rs:168-170 | A freshly generated board of n rows has 5n active clues, and its active view equals its flat view |
| Boards.MarkPlayedCategoryCount | src/lib.rs:235-237 | Within one category, marking an active clue lowers the active count by one; anything else leaves it unchanged |
| Boards.MarkPlayedCount | src/lib.rs:168-170 | Marking a still-active clue played lowers the active count by exactly one; marking a missing tier or a played clue leaves it unchanged |
| Boards.Board.CategoryById | src/lib.rs:172-174 | Returns the first category with the identifier, or nothing when no category has it |
| Boards.FlaggedCount | src/lib.rs:109 | With distinct clue identifiers, when a clue is flagged exactly when its id is in a set of ids on the board, the flagged count equals the set's size |
| Generator.DrawFreshId | src/lib.rs:67-71 | The drawn identifier lies in [7000, 15000) and is absent from the registry. Every earlier draw of the loop was already in the registry. Running out of fuel is `Stalled` |
| Generator.FreshDrawsNoDup | src/lib.rs:69-73 | A registry that only receives fresh draws stays duplicate-free |
| Generator.DrawCategories | src/lib.rs:66-83 | The registry keeps its prefix and gains only fresh in-range identifiers. Every error is a fetch error: the identifier that failed is the last one recorded, and the error carries the service's message. Every panic is the shuffle panic of the last recorded identifier's category, which has a tier it cannot fill. A stall means the last fuel + 1 draws all met identifiers already in the registry. On success it yields exactly the requested number of categories, the k-th being a shuffle of what the service returned for the k-th new identifier |
| Generator.FetchErrorEnds | src/lib.rs:73-76 | A pass whose fetch fails ends the loop at once. The drawn identifier is already recorded, and the result is that fetch's error with the stream where the draw left it |
| Generator.DrawnShuffled | src/lib.rs:79-80 | Every collected category is shuffled, and with an honest service row k carries the k-th new identifier |
| Generator.SampleWithout | src/lib.rs:87 | The sample has min(n, pool size) entries, all from the pool, and no repeats when the pool has none |
| Generator.PickDailyDoubles | src/lib.rs:85-93 | Succeeds exactly when every chosen category has a non-empty clue list, giving each chosen category one of its own clue ids in order; otherwise it panics |
| Generator.AssembleClues | src/lib.rs:101-110 | Succeeds exactly when every clue value normalises. Then each board clue wraps its clue, carries its tier, starts active, and is flagged iff its id was picked. Otherwise it panics with an invalid value |
| Generator.AssembleBoard | src/lib.rs:99-111 | Succeeds exactly when every category's clues all normalise. Then row k is built clue by clue from category k |
| Generator.ShuffledNormalizable | src/lib.rs:102-108 | Shuffled categories never reach the invalid-value panic, and have clues to pick a daily double from |
| Generator.PlaceAndAssemble | src/lib.rs:85-113 | On shuffled categories and no more daily doubles than categories it succeeds. Its only failures are panics. A result places the requested number of daily doubles in distinct categories, each on one of its category's clues, on a board built from the categories |
| Generator.PlaceDrawn | src/lib.rs:85-116 | On categories drawn for new identifiers, placement and assembly always succeed. Row k is category k, the board is a good board, and under an honest service row k's id is the k-th new registry entry |
| Generator.GenerateBoard | src/lib.rs:53-116 | Errs with the configuration error exactly when daily doubles outnumber categories, then leaving the registry and stream untouched. Its other errors are fetch errors of the last recorded identifier, and a panic is the shuffle panic of the last recorded identifier's category, which has a tier it cannot fill. A stall means the last fuel + 1 draws all met registered identifiers. The registry only gains fresh ids. A board has one row per new id, each the shuffle of that id's category, and is a good board. Under an honest service, row k's id is the k-th new registry entry |
| Generator.PlacedGood | src/lib.rs:99-111 | A placement on shuffled categories yields rows in tier order, all active, each clue wrapping the clue at its place. Daily doubles sit in distinct rows, each on a clue of its row, and flags match the picked ids |
| Generator.DailyDoubleIdsDistinct | src/lib.rs:87-89 | With distinct clue ids on the board, daily doubles in distinct rows have distinct ids |
| Generator.DailyDoubleCount | src/lib.rs:85-111 | With distinct clue ids on the board, exactly `num_daily_doubles` clues are flagged |
| Game.RandomClue | src/lib.rs:23 | The unwrapped first random clue: a service error panics with that error, and an empty answer panics on the index |
| Game.TakenIds | src/lib.rs:24-26 | An identifier is taken exactly when some clue of either board's flat view carries it, which is the collision `.any` tests |
| Game.FinalClue | src/lib.rs:22-31 | Succeeds exactly when the first draw succeeds and, if it collides, so does the second. A non-colliding first draw is kept; otherwise the second draw is kept. A kept clue that collides means both draws collided |
| Game.PlayRound | src/lib.rs:20-21 | An unwrapped `generate_board(6, nd)` never errs and panics only with a game fault: an unwrapped error is the failed fetch of the last recorded identifier, any other panic is the shuffle panic of the last recorded identifier's category, and a stall follows fuel + 1 draws of registered identifiers. A board is a good six-row board whose rows are the six new registry entries when the service is honest |
| Game.DistinctRows | src/lib.rs:19-21 | Rows drawn by two boards against one registry started empty have pairwise distinct identifiers under an honest service |
| Game.PlayRounds | src/lib.rs:19-21 | A panic other than an unwrapped error is the shuffle panic of some in-range identifier's unshufflable category. Both boards are good six-row boards with one and two daily doubles; under an honest service no category identifier appears twice across them |
| Game.Finish | src/lib.rs:22-37 | The game keeps both boards and takes the final clue drawn against their identifiers; its only failures are the random-clue panics |
| Game.Generate | src/lib.rs:18-38 | Never returns `Err`, and panics only with a service error, a shuffle panic or an empty random answer. A shuffle panic is that of some in-range identifier whose category has a tier it cannot fill. A game has two good six-row boards with one and two daily doubles, no category repeated across them under an honest service, and the final clue chosen with one retry against their clue identifiers |

## Left out

- Network transport: the jservice calls are the `CategoryService` and `RandomClueService` parameters.
- The distribution of `rand`: each draw is one position of the choice stream. Uniformity and the exact number of raw draws `rand::sample` makes are not modelled.
- Generator.DrawFreshId: `generate_board` redraws without bound; the model gives up after `fuel` redraws with `Stalled`. The outer category loop needs no fuel, because each pass records a new identifier from a finite range.
- The skip branch for a category with no shuffle (src/lib.rs:81) is not modelled: `ShuffleCategory` shows it is unreachable.
- The order of the categories `rand::sample` returns is taken to be its draw order; only its set of distinct categories matters to the properties.
- Generator.DailyDoubleCount: stated only for boards whose clue identifiers are distinct, because backfill (`BackfillRepeats`) or upstream duplicates can give one identifier to several clues, and then one daily double flags them all.
- Game.Generate: the distinct-category property is stated only for a service that answers with the category it was asked for; the registry holds requested identifiers, not returned ones.
- Game.Generate: a stall is not tied to its draws, because the game does not return its registry or stream position; `Game.PlayRound` states the cause for each board.
- Boards.BoardClue.Value: models release-build `i32` wrap-around; a debug build would panic on overflow instead.
- The clone-returning getters of `Jeopardy` are its fields; the iterators and mutable borrows (src/lib.rs:176-188, 196-200, 223-229) only expose data and are represented by sequences and by `MarkPlayed`.
- jservice records carry only the fields the generator reads, plus the clue texts and the category title.

=== FILE: basics.dfy ===
/** Generic vocabulary shared by the whole model: an optional value, sequence
    searching, removal and duplicate-freedom. */
module Basics {

  datatype Option<+T> = None | Some(value: T)

  /** No element occurs twice in `s`. */
  ghost predicate NoDup<T>(s: seq<T>) {
    forall i, j :: 0 <= i < j < |s| ==> s[i] != s[j]
  }

  /** The elements of `s` as a set. */
  ghost function Elems<T>(s: seq<T>): set<T> {
    set x | x in s
  }

  /** The indices 0 .. n-1 in increasing order. */
  function Indices(n: nat): (r: seq<nat>)
    ensures |r| == n
    ensures forall i :: 0 <= i < n ==> r[i] == i
    ensures forall x :: x in r ==> x < n
    ensures NoDup(r)
  {
    seq(n, i => i)
  }

  /** `s` with the element at position `k` taken out. */
  function RemoveAt<T>(s: seq<T>, k: nat): (r: seq<T>)
    requires k < |s|
    ensures |r| == |s| - 1
    ensures forall i :: 0 <= i < k ==> r[i] == s[i]
    ensures forall i :: k <= i < |r| ==> r[i] == s[i + 1]
  {
    s[..k] + s[k + 1..]
  }

  /** Position of the first element of `s` satisfying `p`, as `Iterator::find`
      returns the first match. */
  function FindFirst<T>(s: seq<T>, p: T -> bool): (r: Option<nat>)
    ensures r.Some? ==> r.value < |s| && p(s[r.value])
    ensures r.Some? ==> forall j :: 0 <= j < r.value ==> !p(s[j])
    ensures r.None? <==> forall j :: 0 <= j < |s| ==> !p(s[j])
  {
    if |s| == 0 then None
    else if p(s[0]) then Some(0)
    else match FindFirst(s[1..], p)
      case None => None
      case Some(i) => Some(i + 1)
  }

  /** Removing a position keeps only elements of `s`, and in a duplicate-free
      sequence drops exactly the removed element. */
  lemma RemoveAtKeepsOthers<T>(s: seq<T>, k: nat)
    requires k < |s|
    ensures forall x :: x in RemoveAt(s, k) ==> x in s
    ensures NoDup(s) ==> NoDup(RemoveAt(s, k)) && s[k] !in RemoveAt(s, k)
  {
  }

  lemma NoDupTail<T>(s: seq<T>)
    requires |s| > 0 && NoDup(s)
    ensures NoDup(s[1..]) && s[0] !in s[1..]
    ensures Elems(s) == {s[0]} + Elems(s[1..])
  {
  }

  /** A duplicate-free sequence has as many distinct elements as positions. */
  lemma {:induction false} NoDupCardinality<T>(s: seq<T>)
    requires NoDup(s)
    ensures |Elems(s)| == |s|
  {
    if |s| > 0 {
      NoDupTail(s);
      NoDupCardinality(s[1..]);
    } else {
      assert Elems(s) == {};
    }
  }

}

=== FILE: boards.dfy ===
/** The generated board: clues wrapped with their tier, daily-double flag and
    active flag, grouped into categories, and the accessors gameplay code uses. */
module Boards {
  import opened Basics
  import opened Upstream
  import opened Values

  /** Rust's `i32`. */
  type I32 = x: int | -0x8000_0000 <= x < 0x8000_0000

  /** `x` reduced to 32-bit two's complement, as a release build's `i32`
      multiplication wraps. */
  function WrapI32(x: int): (r: I32)
    ensures (r - x) % 0x1_0000_0000 == 0
    ensures -0x8000_0000 <= x < 0x8000_0000 ==> r == x
  {
    var m := x % 0x1_0000_0000;
    if m < 0x8000_0000 then m else m - 0x1_0000_0000
  }

  datatype BoardClue = BoardClue(boardValue: BoardValue, dailyDouble: bool, active: bool, inner: Clue) {
    function Id(): nat {
      inner.id
    }

    /** Points the clue is worth under `multiplier`: the tier amount times the
        multiplier, in 32-bit arithmetic. */
    function Value(multiplier: I32): (r: I32)
      ensures (r - boardValue.Amount() * multiplier) % 0x1_0000_0000 == 0
      ensures -0x8000_0000 <= boardValue.Amount() * multiplier < 0x8000_0000 ==>
                r == boardValue.Amount() * multiplier
    {
      WrapI32(boardValue.Amount() * multiplier)
    }
  }

  /** `BoardClue::new`: a clue starts out active. */
  function NewBoardClue(boardValue: BoardValue, dailyDouble: bool, inner: Clue): (r: BoardClue)
    ensures r.active
    ensures r.boardValue == boardValue && r.dailyDouble == dailyDouble
    ensures r.Id() == inner.id && r.inner == inner
  {
    BoardClue(boardValue, dailyDouble, true, inner)
  }

  datatype BoardCategory = BoardCategory(clues: seq<BoardClue>, inner: Category) {
    function Id(): nat {
      inner.id
    }

    /** `get`: the first clue of the category whose tier is `v`. */
    function Get(v: BoardValue): (r: Option<BoardClue>)
      ensures r.None? <==> forall i :: 0 <= i < |clues| ==> clues[i].boardValue != v
      ensures r.Some? ==> exists i :: && 0 <= i < |clues| && clues[i] == r.value
                                     && clues[i].boardValue == v
                                     && forall j :: 0 <= j < i ==> clues[j].boardValue != v
    {
      match FindFirst(clues, (c: BoardClue) => c.boardValue == v)
      case None => None
      case Some(i) => Some(clues[i])
    }

    /** What gameplay does through `get_mut`: the first clue of tier `v`, if
        any, is marked played (inactive); everything else stays as it was. */
    function MarkPlayed(v: BoardValue): (r: BoardCategory)
      ensures r.inner == inner && |r.clues| == |clues|
      ensures Get(v).None? ==> r == this
      ensures Get(v).Some? ==> exists i :: && 0 <= i < |clues| && clues[i] == Get(v).value
                                           && clues[i].boardValue == v
                                           && (forall j :: 0 <= j < i ==> clues[j].boardValue != v)
                                           && r.clues == clues[i := clues[i].(active := false)]
      ensures Get(v).Some? ==> r.Get(v) == Some(Get(v).value.(active := false))
    {
      match FindFirst(clues, (c: BoardClue) => c.boardValue == v)
      case None => this
      case Some(i) =>
        var r := this.(clues := clues[i := clues[i].(active := false)]);
        assert forall j :: 0 <= j < |clues| ==> r.clues[j].boardValue == clues[j].boardValue;
        assert r.Get(v).Some? && r.Get(v).value == r.clues[i] by {
          var g := r.Get(v);
          if g.Some? {
            var i' :| && 0 <= i' < |r.clues| && r.clues[i'] == g.value && r.clues[i'].boardValue == v
                      && forall j :: 0 <= j < i' ==> r.clues[j].boardValue != v;
            assert i' == i;
          }
        }
        r
    }
  }

  /** All clues of `cats`, category by category, in order. */
  function Flatten(cats: seq<BoardCategory>): seq<BoardClue> {
    if |cats| == 0 then [] else cats[0].clues + Flatten(cats[1..])
  }

  /** The flat list holds exactly the clues of the categories. */
  lemma {:induction false} FlattenMembers(cats: seq<BoardCategory>)
    ensures forall c :: c in Flatten(cats) <==> exists i :: 0 <= i < |cats| && c in cats[i].clues
  {
    if |cats| > 0 {
      FlattenMembers(cats[1..]);
      assert forall i :: 1 <= i < |cats| ==> cats[i] == cats[1..][i - 1];
    }
  }

  /** Number of active clues in `s`. */
  function CountActive(s: seq<BoardClue>): (n: nat)
    ensures n <= |s|
    ensures n == |s| <==> forall c :: c in s ==> c.active
    ensures n == 0 <==> forall c :: c in s ==> !c.active
  {
    if |s| == 0 then 0
    else
      assert forall c :: c in s <==> c == s[0] || c in s[1..];
      (if s[0].active then 1 else 0) + CountActive(s[1..])
  }

  /** The active clues of `s`, in order. */
  function ActiveOnly(s: seq<BoardClue>): (r: seq<BoardClue>)
    ensures |r| <= |s|
    ensures forall c :: c in r <==> c in s && c.active
  {
    if |s| == 0 then []
    else (if s[0].active then [s[0]] else []) + ActiveOnly(s[1..])
  }

  /** The filter keeps order: filtering a concatenation concatenates the
      filtered parts, and a single clue is kept exactly when it is active.
      Together these fix `ActiveOnly` on every list. */
  lemma {:induction false} ActiveOnlyAppend(a: seq<BoardClue>, b: seq<BoardClue>)
    ensures ActiveOnly(a + b) == ActiveOnly(a) + ActiveOnly(b)
    ensures |a| == 1 ==> ActiveOnly(a) == if a[0].active then a else []
  {
    if |a| > 0 {
      assert (a + b)[1..] == a[1..] + b;
      ActiveOnlyAppend(a[1..], b);
    } else {
      assert a + b == b;
    }
  }

  datatype Board = Board(categories: seq<BoardCategory>) {
    /** `borrow_flat_clues`: every clue of every category, in board order. */
    function FlatClues(): (r: seq<BoardClue>)
      ensures forall c :: c in r <==> exists i :: 0 <= i < |categories| && c in categories[i].clues
    {
      FlattenMembers(categories);
      Flatten(categories)
    }

    /** `borrow_flat_active_clues`: the flat clue list restricted to active clues. */
    function FlatActiveClues(): (r: seq<BoardClue>)
      ensures |r| <= |FlatClues()|
      ensures forall c :: c in r <==> c in FlatClues() && c.active
    {
      ActiveOnly(Flatten(categories))
    }

    /** `active_clues`: how many clues are still to be played. */
    function ActiveClues(): (n: nat)
      ensures n == |FlatActiveClues()|
      ensures n <= |FlatClues()|
      ensures n == |FlatClues()| <==> forall c :: c in FlatClues() ==> c.active
    {
      CountIsActiveLength(Flatten(categories));
      CountActive(Flatten(categories))
    }

    /** `get_category_by_id`: the first category with identifier `id`. */
    function CategoryById(id: nat): (r: Option<BoardCategory>)
      ensures r.None? <==> forall i :: 0 <= i < |categories| ==> categories[i].Id() != id
      ensures r.Some? ==> exists i :: && 0 <= i < |categories| && categories[i] == r.value
                                     && categories[i].Id() == id
                                     && forall j :: 0 <= j < i ==> categories[j].Id() != id
    {
      match FindFirst(categories, (c: BoardCategory) => c.Id() == id)
      case None => None
      case Some(i) => Some(categories[i])
    }

    /** Gameplay marking the clue of tier `v` in category `k` as played,
        through `iter_categories_mut` and `get_mut`. */
    function MarkPlayed(k: nat, v: BoardValue): (r: Board)
      requires k < |categories|
      ensures |r.categories| == |categories|
      ensures forall j :: 0 <= j < |categories| && j != k ==> r.categories[j] == categories[j]
      ensures r.categories[k] == categories[k].MarkPlayed(v)
      ensures r.categories[k].Id() == categories[k].Id()
      ensures categories[k].Get(v).Some? ==>
                r.categories[k].Get(v) == Some(categories[k].Get(v).value.(active := false))
      ensures categories[k].Get(v).None? ==> r == this
    {
      Board(categories[k := categories[k].MarkPlayed(v)])
    }
  }

  /** The active view lists the active clues of the first category, then
      those of the remaining categories, in board order. */
  lemma FlatActiveRows(b: Board)
    ensures |b.categories| == 0 ==> b.FlatActiveClues() == []
    ensures |b.categories| > 0 ==>
      b.FlatActiveClues() == ActiveOnly(b.categories[0].clues) + Board(b.categories[1..]).FlatActiveClues()
  {
    if |b.categories| > 0 {
      ActiveOnlyAppend(b.categories[0].clues, Flatten(b.categories[1..]));
    }
  }

  /** Marking a clue played keeps the category's identifier and every clue's
      identifier in place. */
  lemma MarkPlayedKeepsIds(c: BoardCategory, v: BoardValue)
    ensures c.MarkPlayed(v).Id() == c.Id()
    ensures IdsOf(c.MarkPlayed(v).clues) == IdsOf(c.clues)
  {
  }

  /** Counting the active clues and filtering them agree. */
  lemma {:induction false} CountIsActiveLength(s: seq<BoardClue>)
    ensures CountActive(s) == |ActiveOnly(s)|
  {
    if |s| > 0 {
      CountIsActiveLength(s[1..]);
    }
  }

  /** A board row: five clues, one per tier, in tier order. */
  ghost predicate TierOrdered(c: BoardCategory) {
    |c.clues| == 5 && forall j :: 0 <= j < 5 ==> c.clues[j].boardValue == TierValues[j]
  }

  /** On a board row, `get` of the j-th tier finds the j-th clue. */
  lemma GetTier(c: BoardCategory, j: nat)
    requires TierOrdered(c)
    requires j < 5
    ensures c.Get(TierValues[j]) == Some(c.clues[j])
  {
  }

  /** Every category of `cats` holds exactly five clues. */
  ghost predicate FiveEach(cats: seq<BoardCategory>) {
    forall k :: 0 <= k < |cats| ==> |cats[k].clues| == 5
  }

  /** On a board of five-clue categories, clue j of category i sits at flat
      position 5i + j. */
  lemma {:induction false} FlatLayout(cats: seq<BoardCategory>)
    requires FiveEach(cats)
    ensures |Flatten(cats)| == 5 * |cats|
    ensures forall i, j :: 0 <= i < |cats| && 0 <= j < 5 ==> Flatten(cats)[5 * i + j] == cats[i].clues[j]
  {
    if |cats| > 0 {
      FlatLayout(cats[1..]);
      var rest := Flatten(cats[1..]);
      assert Flatten(cats) == cats[0].clues + rest;
      forall i, j | 0 <= i < |cats| && 0 <= j < 5
        ensures Flatten(cats)[5 * i + j] == cats[i].clues[j]
      {
        if i > 0 {
          assert cats[i] == cats[1..][i - 1];
          assert Flatten(cats)[5 * i + j] == rest[5 * (i - 1) + j];
        }
      }
    }
  }

  /** A board as generation leaves it: `n` rows in tier order, nothing played yet. */
  ghost predicate FreshBoard(b: Board, n: nat) {
    && |b.categories| == n
    && (forall k :: 0 <= k < n ==> TierOrdered(b.categories[k]))
    && (forall k, j :: 0 <= k < n && 0 <= j < |b.categories[k].clues| ==> b.categories[k].clues[j].active)
  }

  /** A fresh board counts five active clues per category. */
  lemma FreshActiveCount(b: Board, n: nat)
    requires FreshBoard(b, n)
    ensures b.ActiveClues() == 5 * n
    ensures b.FlatActiveClues() == b.FlatClues()
  {
    FlatLayout(b.categories);
    FlattenMembers(b.categories);
    AllActiveFilter(b.FlatClues());
  }

  lemma {:induction false} AllActiveFilter(s: seq<BoardClue>)
    requires forall c :: c in s ==> c.active
    ensures ActiveOnly(s) == s
  {
    if |s| > 0 {
      assert forall c :: c in s[1..] ==> c in s;
      AllActiveFilter(s[1..]);
      assert s == [s[0]] + s[1..];
    }
  }

  /** Identifiers of the categories of `b`, in board order. */
  function CategoryIds(b: Board): (r: seq<nat>)
    ensures |r| == |b.categories|
    ensures forall k :: 0 <= k < |r| ==> r[k] == b.categories[k].Id()
  {
    seq(|b.categories|, k requires 0 <= k < |b.categories| => b.categories[k].Id())
  }

  /** Identifiers of the clues of `s`, in order. */
  function IdsOf(s: seq<BoardClue>): (r: seq<nat>)
    ensures |r| == |s|
    ensures forall i :: 0 <= i < |s| ==> r[i] == s[i].Id()
  {
    seq(|s|, i requires 0 <= i < |s| => s[i].Id())
  }

  /** Number of daily-double clues in `s`. */
  function CountFlagged(s: seq<BoardClue>): (n: nat)
    ensures n <= |s|
  {
    if |s| == 0 then 0 else (if s[0].dailyDouble then 1 else 0) + CountFlagged(s[1..])
  }

  /** When the clues of `s` have distinct identifiers and a clue is flagged
      exactly when its identifier is in `flagged` (a set of identifiers that
      occur in `s`), there are exactly |flagged| flagged clues. */
  lemma {:induction false} FlaggedCount(s: seq<BoardClue>, flagged: set<nat>)
    requires NoDup(IdsOf(s))
    requires flagged <= Elems(IdsOf(s))
    requires forall i :: 0 <= i < |s| ==> (s[i].dailyDouble <==> s[i].Id() in flagged)
    ensures CountFlagged(s) == |flagged|
  {
    if |s| == 0 {
      assert flagged == {};
    } else {
      var rest := flagged - {s[0].Id()};
      FlaggedTail(s, flagged);
      FlaggedCount(s[1..], rest);
      if s[0].dailyDouble {
        assert flagged == rest + {s[0].Id()};
      } else {
        assert rest == flagged;
      }
    }
  }

  /** The step of `FlaggedCount`: the tail of `s` meets its requirements with
      the head's identifier taken out of `flagged`. */
  lemma FlaggedTail(s: seq<BoardClue>, flagged: set<nat>)
    requires |s| > 0
    requires NoDup(IdsOf(s))
    requires flagged <= Elems(IdsOf(s))
    requires forall i :: 0 <= i < |s| ==> (s[i].dailyDouble <==> s[i].Id() in flagged)
    ensures NoDup(IdsOf(s[1..]))
    ensures flagged - {s[0].Id()} <= Elems(IdsOf(s[1..]))
    ensures forall i :: 0 <= i < |s| - 1 ==> (s[1..][i].dailyDouble <==> s[1..][i].Id() in flagged - {s[0].Id()})
  {
    var ids := IdsOf(s);
    var t := s[1..];
    NoDupTail(ids);
    assert IdsOf(t) == ids[1..];
    forall i | 0 <= i < |t| ensures t[i].dailyDouble <==> t[i].Id() in flagged - {s[0].Id()} {
      assert t[i] == s[i + 1] && ids[1..][i] == t[i].Id();
    }
  }


  /** Sum over categories of their active-clue counts. */
  function ActivePerCategory(cats: seq<BoardCategory>): nat {
    if |cats| == 0 then 0 else CountActive(cats[0].clues) + ActivePerCategory(cats[1..])
  }

  lemma {:induction false} CountActiveAppend(a: seq<BoardClue>, b: seq<BoardClue>)
    ensures CountActive(a + b) == CountActive(a) + CountActive(b)
  {
    if |a| > 0 {
      assert (a + b)[1..] == a[1..] + b;
      CountActiveAppend(a[1..], b);
    } else {
      assert a + b == b;
    }
  }

  lemma {:induction false} CountActiveFlatten(cats: seq<BoardCategory>)
    ensures CountActive(Flatten(cats)) == ActivePerCategory(cats)
  {
    if |cats| > 0 {
      CountActiveAppend(cats[0].clues, Flatten(cats[1..]));
      CountActiveFlatten(cats[1..]);
    }
  }

  lemma {:induction false} CountActiveUpdate(s: seq<BoardClue>, i: nat, x: BoardClue)
    requires i < |s|
    ensures CountActive(s[i := x]) + (if s[i].active then 1 else 0)
            == CountActive(s) + (if x.active then 1 else 0)
  {
    if i == 0 {
      assert s[i := x][1..] == s[1..];
    } else {
      assert s[i := x][1..] == s[1..][i - 1 := x];
      CountActiveUpdate(s[1..], i - 1, x);
    }
  }

  lemma {:induction false} ActivePerCategoryUpdate(cats: seq<BoardCategory>, k: nat, c: BoardCategory)
    requires k < |cats|
    ensures ActivePerCategory(cats[k := c]) + CountActive(cats[k].clues)
            == ActivePerCategory(cats) + CountActive(c.clues)
  {
    if k == 0 {
      assert cats[k := c][1..] == cats[1..];
    } else {
      assert cats[k := c][1..] == cats[1..][k - 1 := c];
      ActivePerCategoryUpdate(cats[1..], k - 1, c);
    }
  }

  /** Within one category, marking an active clue played lowers the active
      count by one, and marking anything else leaves it as it was. */
  lemma MarkPlayedCategoryCount(c: BoardCategory, v: BoardValue)
    ensures var g := c.Get(v);
            CountActive(c.MarkPlayed(v).clues)
            == if g.Some? && g.value.active then CountActive(c.clues) - 1 else CountActive(c.clues)
  {
    if c.Get(v).Some? {
      var i :| 0 <= i < |c.clues| && c.clues[i] == c.Get(v).value
               && c.MarkPlayed(v).clues == c.clues[i := c.clues[i].(active := false)];
      CountActiveUpdate(c.clues, i, c.clues[i].(active := false));
    }
  }

  /** Marking an active clue played lowers the board's active count by exactly
      one; marking a tier the category lacks, or a clue already played,
      changes nothing. */
  lemma MarkPlayedCount(b: Board, k: nat, v: BoardValue)
    requires k < |b.categories|
    ensures var g := b.categories[k].Get(v);
            b.MarkPlayed(k, v).ActiveClues()
            == if g.Some? && g.value.active then b.ActiveClues() - 1 else b.ActiveClues()
  {
    var cat' := b.categories[k].MarkPlayed(v);
    CountActiveFlatten(b.categories);
    CountActiveFlatten(b.MarkPlayed(k, v).categories);
    assert b.MarkPlayed(k, v).categories == b.categories[k := cat'];
    ActivePerCategoryUpdate(b.categories, k, cat');
    MarkPlayedCategoryCount(b.categories[k], v);
  }
}

=== FILE: game.dfy ===
/** `Jeopardy::generate`: a Jeopardy board, a Double Jeopardy board drawn from
    categories the first did not use, and a Final Jeopardy clue. */
module Game {
  import opened Basics
  import opened Upstream
  import opened Outcomes
  import opened Boards
  import opened Generator

  /** A full game: the two boards and the final clue. The getters of
      `Jeopardy` hand out copies of these fields. */
  datatype Jeopardy = Jeopardy(jeopardyBoard: Board, doubleJeopardyBoard: Board, finalJeopardyClue: Clue)

  /** Rows and daily doubles of each round. */
  const Rows: nat := 6
  const JeopardyDailyDoubles: nat := 1
  const DoubleJeopardyDailyDoubles: nat := 2

  /** Call number `call` of the "one random clue" endpoint, unwrapped and
      indexed at 0: a service error or an empty answer panics. */
  function RandomClue(random: RandomClueService, call: nat): (r: Outcome<Clue>)
    ensures r.Ok? <==> random(call).Fetched? && |random(call).value| > 0
    ensures r.Ok? ==> r.value == random(call).value[0]
    ensures !r.Ok? ==> r.Panic? && (r.fault == IndexOutOfBounds || r.fault.Unwrapped?)
    ensures random(call).FetchFailed? ==> r == Panic(Unwrapped(UpstreamError(random(call).message)))
  {
    match random(call)
    case FetchFailed(e) => Panic(Unwrapped(UpstreamError(e)))
    case Fetched(clues) => if |clues| == 0 then Panic(IndexOutOfBounds) else Ok(clues[0])
  }

  /** The identifiers the final clue must avoid: an identifier is taken
      exactly when some clue of either board carries it, which is what the
      `.any` over the chained flat clue lists tests. */
  function TakenIds(b1: Board, b2: Board): (r: seq<nat>)
    ensures forall id :: id in r <==> exists c :: c in b1.FlatClues() + b2.FlatClues() && c.Id() == id
  {
    var all := b1.FlatClues() + b2.FlatClues();
    var r := IdsOf(all);
    assert forall id :: id in r ==> exists c :: c in all && c.Id() == id by {
      forall id | id in r ensures exists c :: c in all && c.Id() == id {
        var i :| 0 <= i < |r| && r[i] == id;
        assert all[i] in all;
      }
    }
    r
  }

  /** The final clue: a random clue, drawn a second time when the first one's
      identifier is in `taken` (the second draw is kept either way). */
  function FinalClue(taken: seq<nat>, random: RandomClueService): (r: Outcome<Clue>)
    ensures r.Ok? <==> && RandomClue(random, 0).Ok?
                       && (RandomClue(random, 0).value.id in taken ==> RandomClue(random, 1).Ok?)
    ensures r.Ok? && RandomClue(random, 0).value.id !in taken ==> r.value == RandomClue(random, 0).value
    ensures r.Ok? && RandomClue(random, 0).value.id in taken ==> r == RandomClue(random, 1)
    ensures r.Ok? && r.value.id in taken ==> RandomClue(random, 0).value.id in taken && r == RandomClue(random, 1)
    ensures !r.Ok? ==> r.Panic? && (r.fault == IndexOutOfBounds || r.fault.Unwrapped?)
  {
    var first := RandomClue(random, 0);
    if !first.Ok? then first
    else if first.value.id in taken then RandomClue(random, 1)
    else first
  }

  /** The panics a game generation can end in: an unwrapped service error, a
      category the shuffler cannot fill, or an empty random-clue answer. */
  predicate GameFault(f: Fault) {
    || (f.Unwrapped? && f.failure.UpstreamError?)
    || f.MissingClueList? || f.NoClueForTier? || f == IndexOutOfBounds
  }

  /** One `generate_board(Rows, nd, used_ids).unwrap()` of `Jeopardy::generate`:
      the board's error becomes a panic. */
  function PlayRound(nd: U32, used: seq<nat>, src: Source, pos: nat, fetch: CategoryService, fuel: nat): (r: BoardRun)
    requires nd <= Rows
    ensures !r.outcome.Err?
    ensures r.outcome.Panic? ==> GameFault(r.outcome.fault)
    ensures r.outcome.Panic? && r.outcome.fault.Unwrapped? ==>
              FailedOnLastFetch(fetch, used, r.used, Outcome<Generated>.Err(r.outcome.fault.failure))
    ensures r.outcome.Panic? && !r.outcome.fault.Unwrapped? ==> PanickedOnLastShuffle(fetch, used, r.used, r.outcome)
    ensures StalledOnUsed(src, fuel, r.used, r.outcome, r.pos)
    ensures FreshDraws(used, r.used)
    ensures r.pos >= pos
    ensures r.outcome.Ok? ==>
      && GoodBoard(r.outcome.value, nd)
      && |r.outcome.value.board.categories| == Rows
      && |r.used| == |used| + Rows
      && (Honest(fetch) ==> forall k :: 0 <= k < Rows ==> CategoryIds(r.outcome.value.board)[k] == r.used[|used| + k])
  {
    var run := GenerateBoard(Rows, nd, used, src, pos, fetch, fuel);
    if run.outcome.Err? then run.(outcome := Panic(Unwrapped(run.outcome.failure))) else run
  }

  /** Some identifier of the category range is answered with a category
      whose shuffle ends in panic `f`. */
  ghost predicate ShuffleMayFail(fetch: CategoryService, f: Fault) {
    exists id :: InIdRange(id) && UnshufflableAt(fetch, id, f)
  }

  /** A round that panicked other than by unwrapping did so on a drawn
      category that cannot be shuffled. */
  lemma RoundPanicCause(fetch: CategoryService, used: seq<nat>, run: BoardRun)
    requires FreshDraws(used, run.used)
    requires run.outcome.Panic? && !run.outcome.fault.Unwrapped? ==> PanickedOnLastShuffle(fetch, used, run.used, run.outcome)
    ensures run.outcome.Panic? && !run.outcome.fault.Unwrapped? ==> ShuffleMayFail(fetch, run.outcome.fault)
  {
    if run.outcome.Panic? && !run.outcome.fault.Unwrapped? {
      var id := run.used[|run.used| - 1];
      assert InIdRange(id) && UnshufflableAt(fetch, id, run.outcome.fault);
    }
  }

  /** The two boards of `Jeopardy::generate`, drawn one after the other
      against one identifier registry that starts empty. */
  function PlayRounds(src: Source, fetch: CategoryService, fuel: nat): (r: Outcome<(Generated, Generated)>)
    ensures !r.Err?
    ensures r.Panic? ==> GameFault(r.fault)
    ensures r.Panic? && !r.fault.Unwrapped? ==> ShuffleMayFail(fetch, r.fault)
    ensures r.Ok? ==>
      && GoodBoard(r.value.0, JeopardyDailyDoubles)
      && GoodBoard(r.value.1, DoubleJeopardyDailyDoubles)
      && |r.value.0.board.categories| == Rows
      && |r.value.1.board.categories| == Rows
      && (Honest(fetch) ==> NoDup(CategoryIds(r.value.0.board) + CategoryIds(r.value.1.board)))
  {
    var j := PlayRound(JeopardyDailyDoubles, [], src, 0, fetch, fuel);
    if !j.outcome.Ok? then
      RoundPanicCause(fetch, [], j);
      j.outcome.Forward()
    else
      var d := PlayRound(DoubleJeopardyDailyDoubles, j.used, src, j.pos, fetch, fuel);
      if !d.outcome.Ok? then
        RoundPanicCause(fetch, j.used, d);
        d.outcome.Forward()
      else
        DistinctRows(fetch, j.used, d.used, CategoryIds(j.outcome.value.board), CategoryIds(d.outcome.value.board));
        Ok((j.outcome.value, d.outcome.value))
  }

  /** The game around two finished boards: the final clue is drawn against
      the identifiers on them. */
  function Finish(j: Board, d: Board, random: RandomClueService): (r: Outcome<Jeopardy>)
    ensures !r.Err?
    ensures r.Panic? ==> r.fault == IndexOutOfBounds || (r.fault.Unwrapped? && r.fault.failure.UpstreamError?)
    ensures r.Ok? <==> FinalClue(TakenIds(j, d), random).Ok?
    ensures r.Ok? ==> && r.value.jeopardyBoard == j && r.value.doubleJeopardyBoard == d
                      && r.value.finalJeopardyClue == FinalClue(TakenIds(j, d), random).value
  {
    var f := FinalClue(TakenIds(j, d), random);
    if f.Ok? then Ok(Jeopardy(j, d, f.value)) else f.Forward()
  }

  /** `Jeopardy::generate`: two boards, then the final clue. A board error is
      unwrapped into a panic, so the result is never an error. A game it
      returns has two fresh six-row boards with one and two daily doubles, and
      with a service that answers with the category it was asked for, no
      category appears twice across the two boards. */
  function Generate(src: Source, fetch: CategoryService, random: RandomClueService, fuel: nat): (r: Outcome<Jeopardy>)
    ensures !r.Err?
    ensures r.Panic? ==> GameFault(r.fault)
    ensures r.Panic? && (r.fault.MissingClueList? || r.fault.NoClueForTier?) ==> ShuffleMayFail(fetch, r.fault)
    ensures r.Ok? ==>
      && (exists dds :: GoodBoard(Generated(r.value.jeopardyBoard, dds), JeopardyDailyDoubles))
      && (exists dds :: GoodBoard(Generated(r.value.doubleJeopardyBoard, dds), DoubleJeopardyDailyDoubles))
      && |r.value.jeopardyBoard.categories| == Rows
      && |r.value.doubleJeopardyBoard.categories| == Rows
      && (Honest(fetch) ==> NoDup(CategoryIds(r.value.jeopardyBoard) + CategoryIds(r.value.doubleJeopardyBoard)))
      && FinalClue(TakenIds(r.value.jeopardyBoard, r.value.doubleJeopardyBoard), random) == Ok(r.value.finalJeopardyClue)
  {
    var rounds := PlayRounds(src, fetch, fuel);
    if !rounds.Ok? then rounds.Forward()
    else
      var (j, d) := rounds.value;
      assert j == Generated(j.board, j.dailyDoubles) && d == Generated(d.board, d.dailyDoubles);
      Finish(j.board, d.board, random)
  }

  /** Rows whose identifiers are the draws recorded by two successive boards,
      starting from an empty registry, have pairwise distinct identifiers. */
  lemma DistinctRows(fetch: CategoryService, u1: seq<nat>, u2: seq<nat>, ids1: seq<nat>, ids2: seq<nat>)
    requires FreshDraws([], u1) && FreshDraws(u1, u2)
    requires |u1| == |ids1| && |u2| == |u1| + |ids2|
    requires Honest(fetch) ==> forall k :: 0 <= k < |ids1| ==> ids1[k] == u1[k]
    requires Honest(fetch) ==> forall k :: 0 <= k < |ids2| ==> ids2[k] == u2[|u1| + k]
    ensures Honest(fetch) ==> NoDup(ids1 + ids2)
  {
  }
}

=== FILE: generator.dfy ===
/** `generate_board`: draws unused category identifiers, shuffles the fetched
    categories, places the daily doubles and assembles the board. */
module Generator {
  import opened Basics
  import opened Upstream
  import opened Values
  import opened Outcomes
  import opened Shuffle
  import opened Boards

  /** Rust's `u32`, the type of `generate_board`'s counts. */
  type U32 = x: nat | x < 0x1_0000_0000

  /** Category identifiers are drawn from [MinCategoryId, MaxCategory). */
  const MinCategoryId: nat := 7000
  const MaxCategory: nat := 15000

  predicate InIdRange(id: nat) {
    MinCategoryId <= id < MaxCategory
  }

  /** Every identifier the draw can produce. */
  ghost function IdSpace(): set<nat> {
    Elems(seq(MaxCategory - MinCategoryId, i => MinCategoryId + i))
  }

  /** The category identifier drawn at stream position `p`. */
  function IdAt(src: Source, p: nat): (id: nat)
    ensures InIdRange(id)
  {
    MinCategoryId + Choose(src, p, MaxCategory - MinCategoryId)
  }

  /** The identifier draw with its redraw-while-used loop. `generate_board`
      loops until it meets an unused identifier; here at most `fuel` redraws are made
      and running out is `Stalled`. */
  function DrawFreshId(used: seq<nat>, src: Source, pos: nat, fuel: nat): (r: Step<nat>)
    decreases fuel
    ensures pos < r.pos <= pos + fuel + 1
    ensures r.outcome.Ok? || r.outcome.Stalled?
    ensures r.outcome.Ok? ==> r.outcome.value == IdAt(src, r.pos - 1) && r.outcome.value !in used
    ensures forall p :: pos <= p < r.pos - 1 ==> IdAt(src, p) in used
    ensures r.outcome.Stalled? ==> r.pos == pos + fuel + 1 && IdAt(src, r.pos - 1) in used
  {
    var id := IdAt(src, pos);
    if id !in used then Step(Ok(id), pos + 1)
    else if fuel == 0 then Step(Stalled, pos + 1)
    else DrawFreshId(used, src, pos + 1, fuel - 1)
  }

  /** `after` is `before` followed by identifiers each drawn from the range and
      absent from everything recorded before it. */
  ghost predicate FreshDraws(before: seq<nat>, after: seq<nat>) {
    && |before| <= |after|
    && (forall i :: 0 <= i < |before| ==> after[i] == before[i])
    && (forall i :: |before| <= i < |after| ==> InIdRange(after[i]))
    && (forall i, j :: 0 <= j < i < |after| && |before| <= i ==> after[i] != after[j])
  }

  lemma FreshDrawsOne(used: seq<nat>, id: nat)
    requires InIdRange(id) && id !in used
    ensures FreshDraws(used, used) && FreshDraws(used, used + [id])
  {
  }

  lemma FreshDrawsPrepend(used: seq<nat>, id: nat, after: seq<nat>)
    requires InIdRange(id) && id !in used
    requires FreshDraws(used + [id], after)
    ensures FreshDraws(used, after)
  {
  }

  /** The registry stays duplicate-free when it only receives fresh draws. */
  lemma FreshDrawsNoDup(before: seq<nat>, after: seq<nat>)
    requires NoDup(before)
    requires FreshDraws(before, after)
    ensures NoDup(after)
  {
  }

  lemma DrawShrinks(used: seq<nat>, id: nat)
    requires InIdRange(id) && id !in used
    ensures IdSpace() - Elems(used + [id]) < IdSpace() - Elems(used)
  {
    assert Elems(used + [id]) == Elems(used) + {id};
    var all := seq(MaxCategory - MinCategoryId, i => MinCategoryId + i);
    assert all[id - MinCategoryId] == id;
    assert id in IdSpace() - Elems(used);
  }

  /** The draw loop's state at exit. */
  datatype Draws = Draws(outcome: Outcome<seq<Category>>, used: seq<nat>, pos: nat)

  /** The category loop of `generate_board`, with `need` the number of
      categories still to collect: draw a fresh identifier, record it in
      `used`, fetch the category (a fetch error ends the board) and keep its
      shuffle. `generate_board` also skips a category that has no shuffle; that
      branch is not modelled because `ShuffleCategory` either panics or returns
      one. Each pass records a new identifier from a finite range, so the loop
      ends. */
  function DrawCategories(need: nat, used: seq<nat>, src: Source, pos: nat,
                          fetch: CategoryService, fuel: nat): (r: Draws)
    decreases IdSpace() - Elems(used)
    ensures r.pos >= pos
    ensures FreshDraws(used, r.used)
    ensures FailedOnLastFetch(fetch, used, r.used, r.outcome)
    ensures r.outcome.Panic? ==> r.outcome.fault.MissingClueList? || r.outcome.fault.NoClueForTier?
    ensures PanickedOnLastShuffle(fetch, used, r.used, r.outcome)
    ensures StalledOnUsed(src, fuel, r.used, r.outcome, r.pos)
    ensures r.outcome.Ok? ==> |r.outcome.value| == need && DrawnAt(fetch, r.used, |used|, r.outcome.value)
  {
    if need == 0 then Draws(Ok([]), used, pos)
    else
      var d := DrawFreshId(used, src, pos, fuel);
      if !d.outcome.Ok? then Draws(Stalled, used, d.pos)
      else
        var id := d.outcome.value;
        DrawShrinks(used, id);
        FreshDrawsOne(used, id);
        match fetch(id)
        case FetchFailed(e) =>
          FetchFailedLast(fetch, used, id);
          Draws(Err(UpstreamError(e)), used + [id], d.pos)
        case Fetched(category) =>
          var s := ShuffleFetched(category, src, d.pos);
          if s.outcome.Ok? then
            Prepend(fetch, used, id, s.outcome.value.value,
                    DrawCategories(need - 1, used + [id], src, s.pos, fetch, fuel))
          else
            ShuffleFailedLast(fetch, used, id, s.outcome.fault);
            Draws(s.outcome.Forward(), used + [id], s.pos)
  }

  /** An error in `o` is a fetch error, and it came from fetching the last
      identifier recorded in `after` beyond `used`, carrying that fetch's message. */
  ghost predicate FailedOnLastFetch<T>(fetch: CategoryService, used: seq<nat>, after: seq<nat>, o: Outcome<T>) {
    o.Err? ==> && o.failure.UpstreamError?
               && |after| > |used|
               && fetch(after[|after| - 1]) == FetchFailed(o.failure.message)
  }

  /** The service answered `id` with a category that has a tier it cannot
      fill, and `f` is the panic its shuffle gives. */
  ghost predicate UnshufflableAt(fetch: CategoryService, id: nat, f: Fault) {
    && fetch(id).Fetched?
    && !Shufflable(fetch(id).value)
    && ShuffleFault(fetch(id).value, Tiers, f)
  }

  /** A panic in `o` is the shuffle panic of the category of the last
      identifier recorded in `after` beyond `used`. */
  ghost predicate PanickedOnLastShuffle<T>(fetch: CategoryService, used: seq<nat>, after: seq<nat>, o: Outcome<T>) {
    o.Panic? ==> |after| > |used| && UnshufflableAt(fetch, after[|after| - 1], o.fault)
  }

  /** A stall in `o`, ending at stream position `pos`, came after the last
      `fuel + 1` draws all met identifiers already in `after`. */
  ghost predicate StalledOnUsed<T>(src: Source, fuel: nat, after: seq<nat>, o: Outcome<T>, pos: nat) {
    o.Stalled? ==> pos >= fuel + 1 && forall p :: pos - fuel - 1 <= p < pos ==> IdAt(src, p) in after
  }

  /** The pass that ends on a failed fetch leaves that identifier last. */
  lemma FetchFailedLast(fetch: CategoryService, used: seq<nat>, id: nat)
    requires fetch(id).FetchFailed?
    ensures FailedOnLastFetch(fetch, used, used + [id], Outcome<seq<Category>>.Err(UpstreamError(fetch(id).message)))
  {
    assert (used + [id])[|used|] == id;
  }

  /** The pass that ends on a failed shuffle leaves that identifier last. */
  lemma ShuffleFailedLast(fetch: CategoryService, used: seq<nat>, id: nat, f: Fault)
    requires UnshufflableAt(fetch, id, f)
    ensures PanickedOnLastShuffle(fetch, used, used + [id], Outcome<seq<Category>>.Panic(f))
  {
    assert (used + [id])[|used|] == id;
  }

  /** A pass whose fetch fails ends the loop there: the identifier is already
      recorded, and the error carries the service's message. */
  lemma FetchErrorEnds(need: nat, used: seq<nat>, src: Source, pos: nat, fetch: CategoryService, fuel: nat)
    requires need > 0
    requires DrawFreshId(used, src, pos, fuel).outcome.Ok?
    requires fetch(DrawFreshId(used, src, pos, fuel).outcome.value).FetchFailed?
    ensures var d := DrawFreshId(used, src, pos, fuel);
            var id := d.outcome.value;
            DrawCategories(need, used, src, pos, fetch, fuel)
            == Draws(Err(UpstreamError(fetch(id).message)), used + [id], d.pos)
  {
  }

  /** The shuffle of a fetched category, with only the facts the draw loop
      needs: a category drawn from the original, or a shuffle panic. */
  function ShuffleFetched(category: Category, src: Source, pos: nat): (r: Step<Option<Category>>)
    ensures r.pos >= pos
    ensures r.outcome.Ok? ==> r.outcome.value.Some? && ShuffledFrom(category, r.outcome.value.value)
    ensures !r.outcome.Ok? ==> r.outcome.Panic? && (r.outcome.fault.MissingClueList? || r.outcome.fault.NoClueForTier?)
    ensures !r.outcome.Ok? ==> !Shufflable(category) && ShuffleFault(category, Tiers, r.outcome.fault)
  {
    ShuffleCategory(category, src, pos)
  }

  /** A pass of the draw loop that kept category `c` for identifier `id`,
      put in front of what the rest of the loop drew. */
  function Prepend(fetch: CategoryService, used: seq<nat>, id: nat, c: Category, rest: Draws): (r: Draws)
    requires InIdRange(id) && id !in used
    requires fetch(id).Fetched? && ShuffledFrom(fetch(id).value, c)
    requires FreshDraws(used + [id], rest.used)
    requires rest.outcome.Ok? ==> DrawnAt(fetch, rest.used, |used| + 1, rest.outcome.value)
    requires FailedOnLastFetch(fetch, used + [id], rest.used, rest.outcome)
    requires PanickedOnLastShuffle(fetch, used + [id], rest.used, rest.outcome)
    ensures r.used == rest.used && r.pos == rest.pos
    ensures FreshDraws(used, r.used)
    ensures FailedOnLastFetch(fetch, used, r.used, r.outcome)
    ensures PanickedOnLastShuffle(fetch, used, r.used, r.outcome)
    ensures !rest.outcome.Ok? ==> r == rest
    ensures rest.outcome.Ok? ==> && r.outcome == Ok([c] + rest.outcome.value)
                                 && DrawnAt(fetch, r.used, |used|, r.outcome.value)
  {
    FreshDrawsPrepend(used, id, rest.used);
    if rest.outcome.Ok? then
      DrawStep(fetch, used, id, c, rest.used, rest.outcome.value);
      Draws(Ok([c] + rest.outcome.value), rest.used, rest.pos)
    else rest
  }

  /** From position `from` on, `ids` lists the identifiers whose fetched
      categories were shuffled into `cats`, one for one and in order. */
  ghost predicate DrawnAt(fetch: CategoryService, ids: seq<nat>, from: nat, cats: seq<Category>) {
    && |ids| == from + |cats|
    && forall i :: from <= i < |ids| ==> fetch(ids[i]).Fetched? && ShuffledFrom(fetch(ids[i]).value, cats[i - from])
  }

  /** What was drawn is shuffled, and with an honest service row k is the
      category of identifier `ids[from + k]`. */
  lemma DrawnShuffled(fetch: CategoryService, ids: seq<nat>, from: nat, cats: seq<Category>)
    requires DrawnAt(fetch, ids, from, cats)
    ensures forall k :: 0 <= k < |cats| ==> Shuffled(cats[k])
    ensures Honest(fetch) ==> forall k :: 0 <= k < |cats| ==> cats[k].id == ids[from + k]
  {
    forall k | 0 <= k < |cats| ensures Shuffled(cats[k]) && (Honest(fetch) ==> cats[k].id == ids[from + k]) {
      var i := from + k;
      assert i - from == k;
      assert fetch(ids[i]).Fetched? && ShuffledFrom(fetch(ids[i]).value, cats[k]);
    }
  }

  /** One pass of the draw loop extends what the rest of the loop drew. */
  lemma DrawStep(fetch: CategoryService, used: seq<nat>, id: nat, c: Category, after: seq<nat>, cats: seq<Category>)
    requires fetch(id).Fetched? && ShuffledFrom(fetch(id).value, c)
    requires FreshDraws(used + [id], after)
    requires DrawnAt(fetch, after, |used| + 1, cats)
    ensures DrawnAt(fetch, after, |used|, [c] + cats)
  {
  }

  /** `rand::sample` over positions: up to `n` distinct entries of `avail`,
      drawn one at a time without replacement. */
  function SampleWithout(avail: seq<nat>, n: nat, src: Source, pos: nat): (r: (seq<nat>, nat))
    decreases n
    ensures r.1 >= pos
    ensures |r.0| == if n <= |avail| then n else |avail|
    ensures forall i :: 0 <= i < |r.0| ==> r.0[i] in avail
    ensures NoDup(avail) ==> NoDup(r.0)
  {
    if n == 0 || |avail| == 0 then ([], pos)
    else
      var k := Choose(src, pos, |avail|);
      var rest := SampleWithout(RemoveAt(avail, k), n - 1, src, pos + 1);
      RemoveAtKeepsOthers(avail, k);
      assert forall i :: 0 <= i < |rest.0| ==> ([avail[k]] + rest.0)[i + 1] == rest.0[i];
      ([avail[k]] + rest.0, rest.1)
  }

  /** A daily double: the index of the category it was drawn from, and the
      identifier of the clue drawn in it. */
  datatype DailyDouble = DailyDouble(category: nat, clueId: nat)

  function DailyDoubleIds(dds: seq<DailyDouble>): (r: seq<nat>)
    ensures |r| == |dds|
    ensures forall a :: 0 <= a < |dds| ==> r[a] == dds[a].clueId
  {
    seq(|dds|, a requires 0 <= a < |dds| => dds[a].clueId)
  }

  /** For each chosen category, one of its clue identifiers: the
      `rand::sample(.., 1)[0]` of the daily-double loop. */
  function PickDailyDoubles(cats: seq<Category>, chosen: seq<nat>, src: Source, pos: nat): (r: Step<seq<DailyDouble>>)
    requires forall k :: 0 <= k < |chosen| ==> chosen[k] < |cats|
    ensures r.pos >= pos
    ensures r.outcome.Ok? <==> forall k :: 0 <= k < |chosen| ==>
              cats[chosen[k]].clues.Some? && |cats[chosen[k]].clues.value| > 0
    ensures r.outcome.Ok? ==>
      && |r.outcome.value| == |chosen|
      && forall k :: 0 <= k < |chosen| ==>
           && r.outcome.value[k].category == chosen[k]
           && r.outcome.value[k].clueId in ClueIds(cats[chosen[k]].clues.value)
    ensures !r.outcome.Ok? ==> r.outcome.Panic?
  {
    if |chosen| == 0 then Step(Ok([]), pos)
    else
      var cat := cats[chosen[0]];
      match cat.clues
      case None => Step(Panic(MissingClueList(cat.id)), pos)
      case Some(clues) =>
        if |clues| == 0 then Step(Panic(IndexOutOfBounds), pos)
        else
          var ids := ClueIds(clues);
          var pick := DailyDouble(chosen[0], ids[Choose(src, pos, |ids|)]);
          var rest := PickDailyDoubles(cats, chosen[1..], src, pos + 1);
          assert forall k :: 1 <= k < |chosen| ==> chosen[k] == chosen[1..][k - 1];
          if rest.outcome.Ok? then Step(Ok([pick] + rest.outcome.value), rest.pos) else rest
  }

  /** Board clue `b` was made from clue `c`: its tier is c's value, it starts
      active, and it is a daily double exactly when c's identifier was picked. */
  ghost predicate BuiltFrom(b: BoardClue, c: Clue, ddIds: seq<nat>) {
    && b.inner == c
    && c.value == Some(b.boardValue.Amount())
    && b.active
    && (b.dailyDouble <==> c.id in ddIds)
  }

  /** The clue mapping of the assembly step; a value outside the five tiers panics. */
  function AssembleClues(clues: seq<Clue>, ddIds: seq<nat>): (r: Outcome<seq<BoardClue>>)
    ensures r.Ok? <==> forall i :: 0 <= i < |clues| ==> Normalize(clues[i].value).Some?
    ensures r.Ok? ==> |r.value| == |clues| && forall i :: 0 <= i < |clues| ==> BuiltFrom(r.value[i], clues[i], ddIds)
    ensures !r.Ok? ==> r.Panic? && r.fault.InvalidValue? && Normalize(r.fault.raw).None?
  {
    if |clues| == 0 then Ok([])
    else match Normalize(clues[0].value)
      case None => Panic(InvalidValue(clues[0].id, clues[0].value))
      case Some(v) =>
        var head := NewBoardClue(v, clues[0].id in ddIds, clues[0]);
        var rest := AssembleClues(clues[1..], ddIds);
        assert forall i :: 1 <= i < |clues| ==> clues[i] == clues[1..][i - 1];
        if rest.Ok? then Ok([head] + rest.value) else rest
  }

  /** Board category `b` was made from category `c`. */
  ghost predicate CategoryBuiltFrom(b: BoardCategory, c: Category, ddIds: seq<nat>) {
    && c.clues.Some?
    && b.inner == c
    && |b.clues| == |c.clues.value|
    && forall j :: 0 <= j < |b.clues| ==> BuiltFrom(b.clues[j], c.clues.value[j], ddIds)
  }

  /** Every clue of `c` carries one of the five tier amounts. */
  ghost predicate Normalizable(c: Category) {
    c.clues.Some? && forall j :: 0 <= j < |c.clues.value| ==> Normalize(c.clues.value[j].value).Some?
  }

  /** The assembly step: every category, clue by clue, into a board. */
  function AssembleBoard(cats: seq<Category>, ddIds: seq<nat>): (r: Outcome<Board>)
    ensures r.Ok? <==> forall k :: 0 <= k < |cats| ==> Normalizable(cats[k])
    ensures r.Ok? ==> (&& |r.value.categories| == |cats|
                       && forall k :: 0 <= k < |cats| ==> CategoryBuiltFrom(r.value.categories[k], cats[k], ddIds))
    ensures !r.Ok? ==> r.Panic?
  {
    if |cats| == 0 then Ok(Board([]))
    else
      var c := cats[0];
      assert forall k :: 1 <= k < |cats| ==> cats[k] == cats[1..][k - 1];
      match c.clues
      case None => Panic(MissingClueList(c.id))
      case Some(clues) =>
        var row := AssembleClues(clues, ddIds);
        if !row.Ok? then row.Forward()
        else
          var rest := AssembleBoard(cats[1..], ddIds);
          if rest.Ok? then Ok(Board([BoardCategory(row.value, c)] + rest.value.categories))
          else rest
  }

  /** A generated board with the daily doubles placed on it. */
  datatype Generated = Generated(board: Board, dailyDoubles: seq<DailyDouble>)

  /** Category indices of `dds`, in order. */
  function DailyDoubleCategories(dds: seq<DailyDouble>): (r: seq<nat>)
    ensures |r| == |dds|
    ensures forall a :: 0 <= a < |dds| ==> r[a] == dds[a].category
  {
    seq(|dds|, a requires 0 <= a < |dds| => dds[a].category)
  }

  /** `g` places `nd` daily doubles on a board assembled from `cats`: each in a
      different category, each on a clue of its category, and every board clue
      built from the clue at the same place in `cats`. */
  ghost predicate Placed(cats: seq<Category>, nd: nat, g: Generated) {
    && |g.dailyDoubles| == nd
    && NoDup(DailyDoubleCategories(g.dailyDoubles))
    && (forall a :: 0 <= a < nd ==>
          && g.dailyDoubles[a].category < |cats|
          && cats[g.dailyDoubles[a].category].clues.Some?
          && g.dailyDoubles[a].clueId in ClueIds(cats[g.dailyDoubles[a].category].clues.value))
    && |g.board.categories| == |cats|
    && forall k :: 0 <= k < |cats| ==> CategoryBuiltFrom(g.board.categories[k], cats[k], DailyDoubleIds(g.dailyDoubles))
  }

  /** The part of `generate_board` after the draw loop: choose the daily-double
      categories and clues, check their number, assemble the board. On shuffled
      categories with no more daily doubles than categories none of its panics
      can happen. */
  function PlaceAndAssemble(cats: seq<Category>, numDailyDoubles: nat, src: Source, pos: nat): (r: Step<Generated>)
    ensures r.pos >= pos
    ensures !r.outcome.Ok? ==> r.outcome.Panic?
    ensures r.outcome.Ok? ==> Placed(cats, numDailyDoubles, r.outcome.value)
    ensures (forall k :: 0 <= k < |cats| ==> Shuffled(cats[k])) && numDailyDoubles <= |cats| ==> r.outcome.Ok?
  {
    var chosen := SampleWithout(Indices(|cats|), numDailyDoubles, src, pos);
    var dd := PickDailyDoubles(cats, chosen.0, src, chosen.1);
    if !dd.outcome.Ok? then Step(dd.outcome.Forward(), dd.pos)
    else if |dd.outcome.value| != numDailyDoubles then Step(Panic(DailyDoubleMismatch), dd.pos)
    else
      var dds := dd.outcome.value;
      assert DailyDoubleCategories(dds) == chosen.0;
      var board := AssembleBoard(cats, DailyDoubleIds(dds));
      ShuffledNormalizable(cats);
      if board.Ok? then Step(Ok(Generated(board.value, dds)), dd.pos)
      else Step(board.Forward(), dd.pos)
  }

  /** Shuffled categories have non-empty clue lists whose values all normalise. */
  lemma ShuffledNormalizable(cats: seq<Category>)
    ensures (forall k :: 0 <= k < |cats| ==> Shuffled(cats[k])) ==>
              forall k :: 0 <= k < |cats| ==> Normalizable(cats[k]) && |cats[k].clues.value| > 0
  {
  }

  /** The end of one `generate_board` call, with the shared identifier registry
      and the stream position after it. */
  datatype BoardRun = BoardRun(outcome: Outcome<Generated>, used: seq<nat>, pos: nat)

  /** The upstream categories the rows of `b` were built from, in board order. */
  function Inners(b: Board): (r: seq<Category>)
    ensures |r| == |b.categories|
    ensures forall k :: 0 <= k < |r| ==> r[k] == b.categories[k].inner
  {
    seq(|b.categories|, k requires 0 <= k < |b.categories| => b.categories[k].inner)
  }

  /** `generate_board(num_categories, num_daily_doubles, used_ids)`. Besides
      the configuration error, it fails only when the service does; it panics
      only when a drawn category cannot be shuffled. A board it returns has one
      row per newly recorded identifier, each the shuffle of that identifier's
      category, with the daily doubles placed on it. */
  function GenerateBoard(numCategories: U32, numDailyDoubles: U32, used: seq<nat>, src: Source, pos: nat,
                         fetch: CategoryService, fuel: nat): (r: BoardRun)
    ensures r.outcome == Err(TooManyDailyDoubles) <==> numDailyDoubles > numCategories
    ensures numDailyDoubles > numCategories ==> r.used == used && r.pos == pos
    ensures r.outcome.Err? ==> r.outcome.failure == TooManyDailyDoubles || r.outcome.failure.UpstreamError?
    ensures r.outcome.Panic? ==> r.outcome.fault.MissingClueList? || r.outcome.fault.NoClueForTier?
    ensures numDailyDoubles <= numCategories ==> FailedOnLastFetch(fetch, used, r.used, r.outcome)
    ensures PanickedOnLastShuffle(fetch, used, r.used, r.outcome)
    ensures StalledOnUsed(src, fuel, r.used, r.outcome, r.pos)
    ensures FreshDraws(used, r.used)
    ensures r.pos >= pos
    ensures r.outcome.Ok? ==>
      && numDailyDoubles <= numCategories
      && |r.outcome.value.board.categories| == numCategories
      && DrawnAt(fetch, r.used, |used|, Inners(r.outcome.value.board))
      && GoodBoard(r.outcome.value, numDailyDoubles)
      && (Honest(fetch) ==> forall k :: 0 <= k < numCategories ==>
            CategoryIds(r.outcome.value.board)[k] == r.used[|used| + k])
  {
    if numDailyDoubles > numCategories then
      BoardRun(Err(TooManyDailyDoubles), used, pos)
    else
      var drawn := DrawCategories(numCategories, used, src, pos, fetch, fuel);
      if !drawn.outcome.Ok? then
        ForwardEnds(fetch, used, src, fuel, drawn);
        BoardRun(drawn.outcome.Forward(), drawn.used, drawn.pos)
      else
        var placed := PlaceDrawn(fetch, |used|, drawn.used, drawn.outcome.value, numDailyDoubles, src, drawn.pos);
        BoardRun(placed.outcome, drawn.used, placed.pos)
  }

  /** The daily-double placement and assembly of `generate_board` on the
      categories `cats` drawn for identifiers `ids[from..]`: it always
      succeeds, and row k is category k. */
  function PlaceDrawn(fetch: CategoryService, from: nat, ids: seq<nat>, cats: seq<Category>,
                      numDailyDoubles: nat, src: Source, pos: nat): (r: Step<Generated>)
    requires DrawnAt(fetch, ids, from, cats)
    requires numDailyDoubles <= |cats|
    ensures r.pos >= pos
    ensures r.outcome.Ok?
    ensures |r.outcome.value.board.categories| == |cats|
    ensures Inners(r.outcome.value.board) == cats
    ensures GoodBoard(r.outcome.value, numDailyDoubles)
    ensures Honest(fetch) ==> forall k :: 0 <= k < |cats| ==> CategoryIds(r.outcome.value.board)[k] == ids[from + k]
  {
    DrawnShuffled(fetch, ids, from, cats);
    var placed := PlaceAndAssemble(cats, numDailyDoubles, src, pos);
    assert placed.outcome.Ok?;
    assert Inners(placed.outcome.value.board) == cats;
    PlacedGood(cats, numDailyDoubles, placed.outcome.value);
    placed
  }

  /** A draw loop that ended early hands its cause on to the board unchanged. */
  lemma ForwardEnds(fetch: CategoryService, used: seq<nat>, src: Source, fuel: nat, drawn: Draws)
    requires !drawn.outcome.Ok?
    requires FailedOnLastFetch(fetch, used, drawn.used, drawn.outcome)
    requires PanickedOnLastShuffle(fetch, used, drawn.used, drawn.outcome)
    requires StalledOnUsed(src, fuel, drawn.used, drawn.outcome, drawn.pos)
    ensures var o := drawn.outcome.Forward<Generated>();
            && FailedOnLastFetch(fetch, used, drawn.used, o)
            && PanickedOnLastShuffle(fetch, used, drawn.used, o)
            && StalledOnUsed(src, fuel, drawn.used, o, drawn.pos)
  {
  }

  /** `ids` lists the clue identifiers of five-clue `rows`, row by row. */
  ghost predicate RowIds(rows: seq<BoardCategory>, ids: seq<nat>) {
    && FiveEach(rows)
    && |ids| == 5 * |rows|
    && forall k, j :: 0 <= k < |rows| && 0 <= j < 5 ==> ids[5 * k + j] == rows[k].clues[j].Id()
  }

  /** Daily double `d` sits on a clue of its row. */
  ghost predicate OnRow(rows: seq<BoardCategory>, d: DailyDouble) {
    && d.category < |rows|
    && exists j :: 0 <= j < 5 && j < |rows[d.category].clues| && rows[d.category].clues[j].Id() == d.clueId
  }

  /** Each clue of five-clue `rows` is flagged exactly when its identifier is in `ddIds`. */
  ghost predicate FlagsMatch(rows: seq<BoardCategory>, ddIds: seq<nat>) {
    forall k, j :: 0 <= k < |rows| && 0 <= j < 5 && j < |rows[k].clues| ==>
      (rows[k].clues[j].dailyDouble <==> rows[k].clues[j].Id() in ddIds)
  }

  /** Clue j of every row wraps clue j of the row's upstream category. */
  ghost predicate WrapsInner(b: Board) {
    forall k, j :: 0 <= k < |b.categories| && 0 <= j < |b.categories[k].clues| ==>
      && b.categories[k].inner.clues.Some?
      && j < |b.categories[k].inner.clues.value|
      && b.categories[k].clues[j].inner == b.categories[k].inner.clues.value[j]
  }

  /** A board as `generate_board` hands it out with `nd` daily doubles: rows
      in tier order with every clue active, the daily doubles in distinct rows,
      each on a clue of its row, a clue flagged exactly when its identifier was
      picked, and every clue the one at its place in its row's category. */
  ghost predicate GoodBoard(g: Generated, nd: nat) {
    && FreshBoard(g.board, |g.board.categories|)
    && WrapsInner(g.board)
    && |g.dailyDoubles| == nd
    && NoDup(DailyDoubleCategories(g.dailyDoubles))
    && (forall a :: 0 <= a < nd ==> OnRow(g.board.categories, g.dailyDoubles[a]))
    && FlagsMatch(g.board.categories, DailyDoubleIds(g.dailyDoubles))
  }

  /** A placement on shuffled categories is a good board. */
  lemma PlacedGood(cats: seq<Category>, nd: nat, g: Generated)
    requires forall k :: 0 <= k < |cats| ==> Shuffled(cats[k])
    requires Placed(cats, nd, g)
    ensures GoodBoard(g, nd)
  {
    var rows := g.board.categories;
    var ddIds := DailyDoubleIds(g.dailyDoubles);
    TierTables();
    forall k, j | 0 <= k < |rows| && 0 <= j < 5
      ensures rows[k].clues[j].boardValue == TierValues[j]
      ensures rows[k].clues[j].active
      ensures rows[k].clues[j].Id() == cats[k].clues.value[j].id
    {
      var b := rows[k].clues[j];
      assert BuiltFrom(b, cats[k].clues.value[j], ddIds);
      NormalizeAmount(b.boardValue);
      NormalizeAmount(TierValues[j]);
    }
    forall a | 0 <= a < |g.dailyDoubles|
      ensures OnRow(rows, g.dailyDoubles[a])
    {
      var k := g.dailyDoubles[a].category;
      var ids := ClueIds(cats[k].clues.value);
      var j :| 0 <= j < |ids| && ids[j] == g.dailyDoubles[a].clueId;
      assert rows[k].clues[j].Id() == g.dailyDoubles[a].clueId;
    }
  }

  /** Row-wise flags read position by position on the flat list. */
  lemma FlatFlags(rows: seq<BoardCategory>, ddIds: seq<nat>)
    requires FiveEach(rows)
    requires FlagsMatch(rows, ddIds)
    ensures forall i :: 0 <= i < |Flatten(rows)| ==>
              (Flatten(rows)[i].dailyDouble <==> Flatten(rows)[i].Id() in Elems(ddIds))
  {
    FlatLayout(rows);
    forall i | 0 <= i < |Flatten(rows)|
      ensures Flatten(rows)[i].dailyDouble <==> Flatten(rows)[i].Id() in Elems(ddIds)
    {
      var k, j := i / 5, i % 5;
      assert i == 5 * k + j && k < |rows|;
      assert Flatten(rows)[i] == rows[k].clues[j];
    }
  }

  lemma GoodFiveEach(g: Generated, nd: nat)
    requires GoodBoard(g, nd)
    ensures FiveEach(g.board.categories)
  {
  }

  /** The picked identifiers are clue identifiers of the board. */
  lemma DailyDoubleIdsOnBoard(rows: seq<BoardCategory>, ids: seq<nat>, dds: seq<DailyDouble>)
    requires RowIds(rows, ids)
    requires forall a :: 0 <= a < |dds| ==> OnRow(rows, dds[a])
    ensures Elems(DailyDoubleIds(dds)) <= Elems(ids)
  {
  }

  /** With distinct clue identifiers on the board, daily doubles in distinct
      rows have distinct identifiers. */
  lemma DailyDoubleIdsDistinct(rows: seq<BoardCategory>, ids: seq<nat>, dds: seq<DailyDouble>)
    requires RowIds(rows, ids) && NoDup(ids)
    requires NoDup(DailyDoubleCategories(dds))
    requires forall a :: 0 <= a < |dds| ==> OnRow(rows, dds[a])
    ensures NoDup(DailyDoubleIds(dds))
  {
  }

  /** The count of flagged clues, on the rows themselves. */
  lemma FlaggedRows(rows: seq<BoardCategory>, dds: seq<DailyDouble>)
    requires FiveEach(rows)
    requires NoDup(IdsOf(Flatten(rows)))
    requires NoDup(DailyDoubleCategories(dds))
    requires forall a :: 0 <= a < |dds| ==> OnRow(rows, dds[a])
    requires FlagsMatch(rows, DailyDoubleIds(dds))
    ensures CountFlagged(Flatten(rows)) == |dds|
  {
    var flat := Flatten(rows);
    var ddIds := DailyDoubleIds(dds);
    FlatLayout(rows);
    assert RowIds(rows, IdsOf(flat));
    DailyDoubleIdsDistinct(rows, IdsOf(flat), dds);
    DailyDoubleIdsOnBoard(rows, IdsOf(flat), dds);
    NoDupCardinality(ddIds);
    FlatFlags(rows, ddIds);
    FlaggedCount(flat, Elems(ddIds));
  }

  /** With distinct clue identifiers on the board, exactly `nd` clues are
      flagged as daily doubles. */
  lemma DailyDoubleCount(g: Generated, nd: nat)
    requires GoodBoard(g, nd)
    requires NoDup(IdsOf(g.board.FlatClues()))
    ensures CountFlagged(g.board.FlatClues()) == nd
  {
    GoodFiveEach(g, nd);
    FlaggedRows(g.board.categories, g.dailyDoubles);
  }
}

=== FILE: outcomes.dfy ===
/** How a generation step ends, and the choice stream standing in for the
    random-number generator. */
module Outcomes {
  import opened Basics

  /** The `Err` values `generate_board` returns to its caller. */
  datatype Failure =
    | TooManyDailyDoubles
    | UpstreamError(message: string)

  /** Panics: an `unwrap`, `expect`, indexing or `panic!` that aborts the run. */
  datatype Fault =
    | MissingClueList(categoryId: nat)
    | NoClueForTier(categoryId: nat, tier: int)
    | InvalidValue(clueId: nat, raw: Option<int>)
    | DailyDoubleMismatch
    | IndexOutOfBounds
    | Unwrapped(failure: Failure)

  /** The end of a step. `Stalled` stands for a run still redrawing category
      identifiers when the fuel budget ran out. */
  datatype Outcome<+T> = Ok(value: T) | Err(failure: Failure) | Panic(fault: Fault) | Stalled {
    /** Re-types a non-Ok outcome, keeping its cause. */
    function Forward<U>(): (r: Outcome<U>)
      requires !Ok?
      ensures r.Err? == Err? && r.Panic? == Panic? && r.Stalled? == Stalled?
      ensures Err? ==> r.failure == failure
      ensures Panic? ==> r.fault == fault
    {
      if Err? then Err(failure) else if Panic? then Panic(fault) else Stalled
    }
  }

  /** An outcome together with the choice-stream position after it. */
  datatype Step<+T> = Step(outcome: Outcome<T>, pos: nat)

  /** The random-number generator as an infinite stream of raw draws. */
  type Source = nat -> nat

  /** A uniform choice among `n` alternatives, read from position `pos`. */
  function Choose(src: Source, pos: nat, n: nat): (k: nat)
    requires n > 0
    ensures k < n
  {
    src(pos) % n
  }
}

=== FILE: shuffle.dfy ===
/** The category shuffler: one clue per tier, 200 to 1000, backfilled from the
    unvalued clues when a tier has no clue of its own. */
module Shuffle {
  import opened Basics
  import opened Upstream
  import opened Values
  import opened Outcomes

  /** The clues of `clues` whose raw value is exactly `v`, in their order. */
  function WithValue(clues: seq<Clue>, v: Option<int>): (r: seq<Clue>)
    ensures |r| <= |clues|
    ensures forall c :: c in r <==> c in clues && c.value == v
  {
    if |clues| == 0 then []
    else (if clues[0].value == v then [clues[0]] else []) + WithValue(clues[1..], v)
  }

  /** Some clue of `clues` has raw value `v`. */
  ghost predicate HasValue(clues: seq<Clue>, v: Option<int>) {
    exists c :: c in clues && c.value == v
  }

  /** Tier `amount` can be served: by a clue of that value or by an unvalued one. */
  ghost predicate Fillable(clues: seq<Clue>, amount: int) {
    HasValue(clues, Some(amount)) || HasValue(clues, None)
  }

  /** `c` is a legitimate pick for tier `amount` out of `clues`: an original
      clue of that value when there is one, and only otherwise an unvalued
      original relabelled with it. */
  ghost predicate DrawnFor(clues: seq<Clue>, amount: int, c: Clue) {
    && c.value == Some(amount)
    && if HasValue(clues, Some(amount)) then c in clues else c.(value := None) in clues
  }

  /** `get_clue_sample`: one clue of `category` whose value is `value`. When
      there is none and a tier was asked for, an unvalued clue is taken and given
      that tier; when that pool is empty too, the `expect` panics. */
  function GetClueSample(category: Category, value: Option<int>, src: Source, pos: nat): (r: Step<Option<Clue>>)
    decreases if value.Some? then 1 else 0
    ensures r.pos >= pos
    ensures category.clues.None? ==> r.outcome == Panic(MissingClueList(category.id))
    ensures category.clues.Some? && HasValue(category.clues.value, value) ==>
      && r.outcome.Ok? && r.outcome.value.Some?
      && r.outcome.value.value in category.clues.value
      && r.outcome.value.value.value == value
    ensures category.clues.Some? && !HasValue(category.clues.value, value) && value.None? ==>
      r.outcome == Ok(None)
    ensures category.clues.Some? && !HasValue(category.clues.value, value) && value.Some?
            && HasValue(category.clues.value, None) ==>
      && r.outcome.Ok? && r.outcome.value.Some?
      && r.outcome.value.value.value == value
      && r.outcome.value.value.(value := None) in category.clues.value
    ensures category.clues.Some? && !HasValue(category.clues.value, value) && value.Some?
            && !HasValue(category.clues.value, None) ==>
      r.outcome == Panic(NoClueForTier(category.id, value.value))
  {
    match category.clues
    case None => Step(Panic(MissingClueList(category.id)), pos)
    case Some(clues) =>
      var pool := WithValue(clues, value);
      if |pool| > 0 then
        var pick := pool[Choose(src, pos, |pool|)];
        assert pick in pool;
        Step(Ok(Some(pick)), pos + 1)
      else if value.None? then
        Step(Ok(None), pos)
      else
        var unvalued := GetClueSample(category, None, src, pos);
        if unvalued.outcome.Ok? && unvalued.outcome.value.Some? then
          Step(Ok(Some(unvalued.outcome.value.value.(value := value))), unvalued.pos)
        else if unvalued.outcome.Ok? then
          Step(Panic(NoClueForTier(category.id, value.value)), unvalued.pos)
        else
          unvalued
  }

  /** The tiers in `amounts` can all be served from `category`. */
  ghost predicate Serves(category: Category, amounts: seq<int>) {
    |amounts| == 0 || (category.clues.Some? && forall a :: a in amounts ==> Fillable(category.clues.value, a))
  }

  /** The panic a shuffle of `category` over `amounts` may end in: the clue
      list is missing, or some tier in `amounts` has neither a clue of its own
      nor an unvalued clue to take. */
  ghost predicate ShuffleFault(category: Category, amounts: seq<int>, f: Fault) {
    || (category.clues.None? && f == MissingClueList(category.id))
    || (&& category.clues.Some? && f.NoClueForTier? && f.categoryId == category.id
        && f.tier in amounts && !Fillable(category.clues.value, f.tier))
  }

  /** The `filter_map` over the tier list: samples each tier in turn, keeping
      what is found; the first panic ends the walk. */
  function SampleTiers(category: Category, amounts: seq<int>, src: Source, pos: nat): (r: Step<seq<Clue>>)
    ensures r.pos >= pos
    ensures r.outcome.Ok? <==> Serves(category, amounts)
    ensures r.outcome.Ok? && |amounts| > 0 ==>
      && category.clues.Some?
      && |r.outcome.value| == |amounts|
      && forall i :: 0 <= i < |amounts| ==> DrawnFor(category.clues.value, amounts[i], r.outcome.value[i])
    ensures !r.outcome.Ok? ==> r.outcome.Panic? && ShuffleFault(category, amounts, r.outcome.fault)
  {
    if |amounts| == 0 then Step(Ok([]), pos)
    else
      var s := GetClueSample(category, Some(amounts[0]), src, pos);
      if s.outcome.Ok? then
        var kept := if s.outcome.value.Some? then [s.outcome.value.value] else [];
        var rest := SampleTiers(category, amounts[1..], src, s.pos);
        assert forall a :: a in amounts ==> a == amounts[0] || a in amounts[1..];
        assert forall a :: a in amounts[1..] ==> a in amounts;
        if rest.outcome.Ok? then Step(Ok(kept + rest.outcome.value), rest.pos) else rest
      else
        assert amounts[0] in amounts;
        Step(s.outcome.Forward(), s.pos)
  }

  /** A category fit for a board row: five clues carrying the five tier amounts in order. */
  ghost predicate Shuffled(c: Category) {
    && c.clues.Some?
    && |c.clues.value| == 5
    && forall i :: 0 <= i < 5 ==> c.clues.value[i].value == Some(Tiers[i])
  }

  /** `c` is a shuffle of `original`: same identity and title, and clue i is a
      legitimate pick for tier i out of the original clues. */
  ghost predicate ShuffledFrom(original: Category, c: Category) {
    && Shuffled(c)
    && original.clues.Some?
    && c == original.(clues := c.clues)
    && forall i :: 0 <= i < 5 ==> DrawnFor(original.clues.value, Tiers[i], c.clues.value[i])
  }

  /** Every tier of `category` can be filled. */
  ghost predicate Shufflable(category: Category) {
    category.clues.Some? && forall i :: 0 <= i < 5 ==> Fillable(category.clues.value, Tiers[i])
  }

  /** `shuffle_category`: replaces the clue list by one clue per tier. The
      "fewer than five clues" answer is never produced: a tier that cannot be
      filled makes the sampler panic first. */
  function ShuffleCategory(category: Category, src: Source, pos: nat): (r: Step<Option<Category>>)
    ensures r.pos >= pos
    ensures r.outcome.Ok? <==> Shufflable(category)
    ensures r.outcome.Ok? ==> r.outcome.value.Some? && ShuffledFrom(category, r.outcome.value.value)
    ensures !r.outcome.Ok? ==> r.outcome.Panic? && ShuffleFault(category, Tiers, r.outcome.fault)
  {
    var s := SampleTiers(category, Tiers, src, pos);
    assert forall a :: a in Tiers <==> exists i :: 0 <= i < 5 && Tiers[i] == a;
    if !s.outcome.Ok? then Step(s.outcome.Forward(), s.pos)
    else if |s.outcome.value| != 5 then Step(Ok(None), s.pos)
    else Step(Ok(Some(category.(clues := Some(s.outcome.value)))), s.pos)
  }

  /** Backfill can hand the same unvalued clue to two tiers: with one clue for
      each of 200, 400 and 600 and a single unvalued clue, the 800 and 1000
      clues of every shuffle are that one clue, relabelled, so the shuffled
      category holds one identifier twice. */
  lemma BackfillRepeats(category: Category, src: Source, pos: nat)
    requires category.clues.Some? && |category.clues.value| == 4
    requires category.clues.value[0].value == Some(200)
    requires category.clues.value[1].value == Some(400)
    requires category.clues.value[2].value == Some(600)
    requires category.clues.value[3].value == None
    ensures var r := ShuffleCategory(category, src, pos);
            && r.outcome.Ok? && r.outcome.value.Some?
            && r.outcome.value.value.clues.value[3].id == category.clues.value[3].id
            && r.outcome.value.value.clues.value[4].id == category.clues.value[3].id
  {
    var clues := category.clues.value;
    BackfillPool(clues);
    assert Shufflable(category);
    var picked := ShuffleCategory(category, src, pos).outcome.value.value.clues.value;
    forall j | 3 <= j < 5 ensures picked[j].id == clues[3].id {
      assert DrawnFor(clues, Tiers[j], picked[j]);
    }
  }

  /** The clue list of `BackfillRepeats`: nothing for 800 or 1000, and one
      unvalued clue. */
  lemma BackfillPool(clues: seq<Clue>)
    requires |clues| == 4
    requires clues[0].value == Some(200) && clues[1].value == Some(400)
    requires clues[2].value == Some(600) && clues[3].value == None
    ensures HasValue(clues, None)
    ensures !HasValue(clues, Some(800)) && !HasValue(clues, Some(1000))
    ensures forall c :: c in clues && c.value == None ==> c == clues[3]
  {
    assert clues[3] in clues;
    assert forall c :: c in clues ==> c == clues[0] || c == clues[1] || c == clues[2] || c == clues[3];
  }

  /** A category with a clue of every tier value keeps only its own clues:
      backfill never runs, and each shuffled clue is an original one. */
  lemma OwnCluesKept(category: Category, src: Source, pos: nat)
    requires category.clues.Some?
    requires forall i :: 0 <= i < 5 ==> HasValue(category.clues.value, Some(Tiers[i]))
    ensures var r := ShuffleCategory(category, src, pos);
            && r.outcome.Ok? && r.outcome.value.Some?
            && forall i :: 0 <= i < 5 ==> r.outcome.value.value.clues.value[i] in category.clues.value
  {
  }
}

=== FILE: upstream.dfy ===
/** The records the trivia service hands to the generator, and the two service
    capabilities it consumes. The records carry only the fields the generator
    reads, plus the clue texts and the category title. */
module Upstream {
  import opened Basics

  /** A clue: identifier, optional raw point value (an i32 upstream), texts. */
  datatype Clue = Clue(id: nat, value: Option<int>, question: string, answer: string)

  /** A category: identifier, title and an optional list of clues. */
  datatype Category = Category(id: nat, title: string, clues: Option<seq<Clue>>)

  /** Identifiers of `clues`, in order. */
  function ClueIds(clues: seq<Clue>): (r: seq<nat>)
    ensures |r| == |clues|
    ensures forall i :: 0 <= i < |clues| ==> r[i] == clues[i].id
  {
    seq(|clues|, i requires 0 <= i < |clues| => clues[i].id)
  }

  /** What a service call returns: a value or the service's error message. */
  datatype Fetch<+T> = Fetched(value: T) | FetchFailed(message: string)

  /** Category lookup by identifier. */
  type CategoryService = nat -> Fetch<Category>

  /** The "one random clue" endpoint; call number `n` of a run answers `random(n)`. */
  type RandomClueService = nat -> Fetch<seq<Clue>>

  /** A service that, asked for category `id`, answers with a category whose
      identifier is `id`. */
  ghost predicate Honest(fetch: CategoryService) {
    forall id: nat {:trigger fetch(id)} :: fetch(id).Fetched? ==> fetch(id).value.id == id
  }
}

=== FILE: values.dfy ===
/** The five canonical point tiers of a board row and the normalisation of a
    raw clue value onto them. */
module Values {
  import opened Basics

  /** The tiers, each with the point amount `BoardValue` gives as its discriminant. */
  datatype BoardValue = TwoHundred | FourHundred | SixHundred | EightHundred | OneThousand {
    function Amount(): int {
      match this
      case TwoHundred => 200
      case FourHundred => 400
      case SixHundred => 600
      case EightHundred => 800
      case OneThousand => 1000
    }
  }

  /** Raw amounts of the tiers in board order (top row first). */
  const Tiers: seq<int> := [200, 400, 600, 800, 1000]

  /** The tiers themselves in board order. */
  const TierValues: seq<BoardValue> := [TwoHundred, FourHundred, SixHundred, EightHundred, OneThousand]

  /** The tier of a raw value, or None for every value that is not exactly one
      of the five amounts (absent values included). */
  function Normalize(v: Option<int>): (r: Option<BoardValue>)
    ensures r.Some? <==> v.Some? && v.value in Tiers
    ensures r.Some? ==> v == Some(r.value.Amount())
  {
    if v == Some(200) then Some(TwoHundred)
    else if v == Some(400) then Some(FourHundred)
    else if v == Some(600) then Some(SixHundred)
    else if v == Some(800) then Some(EightHundred)
    else if v == Some(1000) then Some(OneThousand)
    else None
  }

  /** Normalisation inverts Amount, and the i-th tier value carries the i-th amount. */
  lemma NormalizeAmount(b: BoardValue)
    ensures Normalize(Some(b.Amount())) == Some(b)
    ensures b.Amount() in Tiers
  {
  }

  lemma TierTables()
    ensures forall i :: 0 <= i < 5 ==> TierValues[i].Amount() == Tiers[i]
    ensures forall i, j :: 0 <= i < j < 5 ==> Tiers[i] < Tiers[j]
  {
  }
}
